=== FILE: README.md ===
# Yahoo Finance adapter: a Dafny model

This project models the fetch → transform → cache core of the Yahoo Finance
adapter (`src/tools/yahoo_finance.py`). The adapter turns a stock ticker
into one of three lists:

- daily `Price` bars;
- a one-element list holding a `FinancialMetrics` snapshot;
- `InsiderTrade` records.

Every successful result is memoized in an in-process cache `_cache`. This
includes an insider selection that filters down to `[]`. A raise or an empty
provider answer returns `[]` and is not stored. The cache has five namespaces,
and `clear_cache` empties all of them.

The model is functional:

- The cache is a `Cache` value with five maps. It is passed in and handed back.
- Each fetcher is a function from `(cache, arguments, provider response)` to
  `Call(result, cache', consulted)`. `consulted` records whether the provider
  was called, which is what happens on a cache miss.
- The provider is never modelled. Each fetcher receives the outcome of its one
  call as `Response<T> = Raised | NoData | Data(value)`.
- A `Data` table with no rows counts as empty, as `df.empty` does.

Modules, one per component:

- `Options`: Python's optional value.
- `Strings`: the Python `str` operations the adapter uses. These are ordering,
  `lower()`, `in` and `str(int)`.
- `Provider`: the shapes the provider returns.
- `Models`: the `Price`, `FinancialMetrics` and `InsiderTrade` records.
- `CacheStore`: the five-namespace cache, `clear_cache`, and the memo step the
  three fetchers share.
- `Prices`, `Metrics`, `Insider`: the three fetchers.
- `Session`: properties of several calls on one cache.

Where the code and its own comments disagree, the model follows the code. The
docstring at `src/tools/yahoo_finance.py:90` says `end_date` is ignored, but line
114 uses it as the snapshot's `report_period`. `Metrics.ReportPeriod` models line
114.

The insider cache key is built exactly as written, with `str(None)` for a
missing start date. It is not injective: `Insider.KeyConflatesNoneWithItsName`
shows that an absent start date and the start date `"None"` share an entry.
What is proved is narrower: with the other arguments fixed, different limits
never share a key.

## Model

| member | source | states |
|---|---|---|
| Strings.NotLessIsAtMost | src/tools/yahoo_finance.py:215-218 | under Python's string order, `not (a < b)` holds iff `b <= a`; this is what makes the `continue` guards inclusive bounds |
| Strings.LessTotal | src/tools/yahoo_finance.py:215-217 | any two strings compare as less, equal or greater |
| Strings.LessTransitive | src/tools/yahoo_finance.py:215-217 | Python's string order is transitive |
| Strings.Lower | src/tools/yahoo_finance.py:230 | lower-casing keeps the length and maps every character on its own |
| Strings.ContainsIff | src/tools/yahoo_finance.py:230 | the left-to-right scan finds the needle iff it occurs at some index of the text |
| Strings.Decimal | src/tools/yahoo_finance.py:191 | `str(limit)` is a non-empty string of decimal digits |
| Strings.DecimalRoundTrip | src/tools/yahoo_finance.py:191 | reading the digits of `str(n)` back gives `n` |
| CacheStore.Clear | src/tools/yahoo_finance.py:254-260 | after `clear_cache` no key is present in any of the five namespaces |
| CacheStore.Memo | src/tools/yahoo_finance.py:42-76 | the provider is called iff the key is absent; a hit returns the stored list; a miss returns the fetched list, or `[]` when the fetch failed; it stores the key only for a successful fetch; existing entries are never overwritten; whatever is stored under the key is what was returned |
| CacheStore.MemoHitsAfterStore | src/tools/yahoo_finance.py:42-45 | once a key is stored, the next lookup returns the same list without calling the provider, whatever the provider would answer |
| Prices.PriceKey | src/tools/yahoo_finance.py:42 | the key is the ticker, `_`, the start date, `_`, the end date, each recoverable at its position |
| Prices.PriceKeyDeterminesRequest | src/tools/yahoo_finance.py:42 | with dates of one fixed width, equal price keys mean equal ticker, start date and end date, so two requests never share an entry |
| Prices.ToPrices | src/tools/yahoo_finance.py:58-68 | N rows give N prices in row order; each price takes open, close, high, low and volume from its row, and its time is the row's date |
| Prices.PricesRoundTrip | src/tools/yahoo_finance.py:58-68 | the provider rows can be read back from the prices, so the transform loses nothing |
| Prices.ThreeBarsExample | tests/tools/test_yahoo_finance.py:33-54 | three AAPL bars on an empty cache call the provider and give three prices, the first with open 150, close 153, high 155, low 148, volume 1000000 |
| Prices.Fetched | src/tools/yahoo_finance.py:53-72 | there is something to store iff the provider returned a non-empty frame, and then it is the transformed rows, one price per row |
| Prices.GetPrices | src/tools/yahoo_finance.py:42-76 | keyed by ticker, start and end; a hit returns the cached list and leaves the cache alone; a raise or an empty frame returns `[]` and stores nothing; otherwise it returns the transformed rows and stores them under the key |
| Prices.PricesHitIgnoresProvider | src/tools/yahoo_finance.py:42-45 | on a hit the outcome does not depend on the provider's answer |
| Metrics.ReportPeriod | src/tools/yahoo_finance.py:113-114 | the report period is the end date when one is given and non-empty, and today's date otherwise |
| Metrics.Lookup | src/tools/yahoo_finance.py:123 | `info.get(key)` is present iff the key is present, and then it is the stored number |
| Metrics.Percent | src/tools/yahoo_finance.py:132 | a rate is present iff the key is present with a nonzero value, and then it is 100 times that value |
| Metrics.Snapshot | src/tools/yahoo_finance.py:118-122 | the snapshot carries the requested ticker and period label, the report period, and the provider currency or `'USD'` |
| Metrics.SnapshotFollowsTable | src/tools/yahoo_finance.py:122-161 | every field follows the declared table; an unavailable field is always `None`; a ratio field copies the provider value; a rate field is the provider fraction ×100 when present and nonzero, and `None` when absent or zero |
| Metrics.GrossMarginExample | src/tools/yahoo_finance.py:132 | a gross margin of 0.45 maps to 45.0, and an absent or zero one maps to `None` |
| Metrics.RateRoundTrip | src/tools/yahoo_finance.py:132-158 | a rate field is never a fabricated zero, and dividing it by 100 gives the provider's fraction |
| Metrics.TableKeysCoverRules | src/tools/yahoo_finance.py:123-160 | every provider key the table names is among the 22 keys the mapper reads |
| Metrics.SnapshotReadsOnlyTableKeys | src/tools/yahoo_finance.py:122-161 | two dictionaries that agree on those 22 keys and on the currency give the same snapshot |
| Metrics.Fetched | src/tools/yahoo_finance.py:109-166 | there is something to store iff the provider returned a dictionary, and then it is exactly one snapshot built from it |
| Metrics.GetFinancialMetrics | src/tools/yahoo_finance.py:97-170 | keyed by the ticker alone; a hit returns the cache; an absent dictionary or a raise returns `[]` and stores nothing; otherwise it returns and stores exactly one snapshot |
| Metrics.MetricsKeyedByTickerOnly | src/tools/yahoo_finance.py:97-166 | once a snapshot is stored, a call with the same ticker and any end date, period or limit returns it without calling the provider, with the first call's report period and period |
| Insider.InsiderKey | src/tools/yahoo_finance.py:191 | the key is the ticker, `_`, the end date, `_`, `str(start_date)`, `_` and the decimal digits of the limit, each segment at its position |
| Insider.DefaultLimitKey | src/tools/yahoo_finance.py:177-191 | a request with the default limit of 1000 is stored under a key ending in `_1000` |
| Insider.KeyConflatesNoneWithItsName | src/tools/yahoo_finance.py:191 | an absent start date and the start date `"None"` produce the same key |
| Insider.KeySeparatesLimits | src/tools/yahoo_finance.py:191 | with ticker, end date and start date fixed, equal keys imply equal limits |
| Insider.KeptIffInWindow | src/tools/yahoo_finance.py:211-218 | a row survives the guards iff its filing date is empty or lies between the given start and end dates, both inclusive, with an absent or empty bound imposing nothing |
| Insider.Skipped | src/tools/yahoo_finance.py:211-218 | a row is skipped iff its filing date is outside the inclusive window, as `KeptIffInWindow` characterises the guards |
| Insider.IsBoardDirector | src/tools/yahoo_finance.py:230 | the flag holds iff "director" occurs in the lower-cased relation |
| Insider.DirectorTestIgnoresCase | src/tools/yahoo_finance.py:230 | two relations that differ only in the case of ASCII letters get the same director flag |
| Insider.TradeOf | src/tools/yahoo_finance.py:221-239 | ticker and issuer are the ticker; name and title default to empty; the director flag is the case-insensitive "director" test; present shares and price are copied from the row and missing ones give 0; the value is the row's shares × price when both are present and 0 otherwise; the dates are the formatted timestamps or empty |
| Insider.TradeValueExample | src/tools/yahoo_finance.py:232-234 | 100 shares at 2.5 give a value of 250, and a missing share count gives 0 |
| Insider.Emit | src/tools/yahoo_finance.py:209-240 | one iteration appends at most one trade, and appends the row's trade iff the filing date is in the window |
| Insider.Select | src/tools/yahoo_finance.py:208-240 | the loop yields at most one trade per row, and every trade's filing date is in the window |
| Insider.SelectAppend | src/tools/yahoo_finance.py:208-240 | selecting from `a + b` gives the selection from `a` followed by the selection from `b`, so input order is kept |
| Insider.SelectMembership | src/tools/yahoo_finance.py:208-240 | a trade is in the result iff it is built from some row whose filing date is in the window |
| Insider.Cap | src/tools/yahoo_finance.py:243 | the result is always a prefix of the input; it has `min(limit, n)` elements when `limit > 0` and is the whole input when `limit == 0` |
| Insider.Fetched | src/tools/yahoo_finance.py:196-247 | there is something to store iff the provider returned a non-empty table, and then it is the capped selection of its rows |
| Insider.GetInsiderTrades | src/tools/yahoo_finance.py:191-251 | keyed by ticker, end date, start date and limit; a hit returns the cache; a raise or an absent or empty table returns `[]` and stores nothing; otherwise it returns and stores the capped selection, so every trade is in the window and there are at most `limit` of them |
| Insider.EmptySelectionIsCached | src/tools/yahoo_finance.py:241-247 | a non-empty table whose rows all fall outside the window stores `[]`, and the identical request then does not call the provider |
| Session.InitialIsCoherent | src/tools/yahoo_finance.py:21-27 | the initial cache satisfies the entry invariant |
| Session.ClearKeepsCoherent | src/tools/yahoo_finance.py:254-260 | the entry invariant holds after `clear_cache` |
| Session.PricesKeepCoherent | src/tools/yahoo_finance.py:53-72 | a price fetch stores only non-empty lists |
| Session.MetricsKeepCoherent | src/tools/yahoo_finance.py:109-166 | a metrics fetch stores only a one-element list whose snapshot names the key's ticker |
| Session.InsiderKeepsCoherent | src/tools/yahoo_finance.py:191-247 | an insider fetch changes only the insider namespace, so the entry invariant is preserved |
| Session.PricesSecondCall | src/tools/yahoo_finance.py:42-76 | of two identical price requests, the second calls the provider iff the first returned `[]`; otherwise it returns the first's list and leaves the cache unchanged |
| Session.MetricsSecondCall | src/tools/yahoo_finance.py:97-170 | of two metrics requests for one ticker, the second calls the provider iff the first returned `[]` |
| Session.InsiderSecondCall | src/tools/yahoo_finance.py:191-251 | of two identical insider requests, the second calls the provider iff the first did and got an exception or no table |
| Session.ClearForgets | src/tools/yahoo_finance.py:254-260 | after `clear_cache` every price, metrics and insider request calls the provider |

## Left out

- The provider calls themselves (`yf.Ticker`, `.history`, `.info`, `.insider_transactions`, `iterrows`) are not modelled. Each fetcher is given the outcome of its one call.
- Logging is left out, because it does not affect any result.
- `datetime.now()` is not read. The current date is the `today` parameter of `Metrics.GetFinancialMetrics`.
- `strftime` is not modelled. Dates arrive already formatted as `YYYY-MM-DD`, and a non-timestamp cell becomes `''`.
- Floating point is modelled as `real`. NaN, infinities and IEEE rounding of `float(...)` and `x * 100` are not modelled.
- `int(row['Volume'])` is not modelled. The volume arrives as an integer, so truncation of a fractional or NaN volume is not modelled.
- Exceptions raised while transforming data are not modelled. Examples are `float()` of a non-numeric cell and validation inside the record classes. Only a raising provider call is modelled. src/data/models.py is not part of this model.
- Strings.Lower: does not model Unicode case mapping, because only ASCII letters are lower-cased. `Insider.IsBoardDirector` inherits this.
- Metrics.Snapshot: does not model two things. One is a `currency` entry stored as `None`. The other is a non-numeric value under a numeric key. The dictionary is modelled as numeric entries plus an optional currency string.
- Insider.GetInsiderTrades: the limit is a `nat`. A negative limit slices from the end in Python and is excluded.
- Insider.TradeOf: models exactly what the code computes from the `value` column. Whether that column is a per-share price or an aggregate value is not settled here.
- `str(...)` of a non-string filer relation is not modelled, for example `'nan'`. The relation is an optional string.
- Returned lists alias the cached lists in Python, so a caller that mutates a result also mutates the cache. Values here are immutable, so this is not modelled.
- The `line_items` and `market_cap` namespaces are not modelled beyond being cleared. This module only clears them.
- Concurrent use of the cache is not modelled.
- The demo scripts are not modelled. Of the module's tests, only the three-bar price test has a member of its own, `Prices.ThreeBarsExample`; the assertions of the others appear in the properties above.

=== FILE: cache.dfy ===
/** The adapter's in-process memo `_cache`: five namespaces mapping a request
    key to a previously returned list. No eviction, no expiry. */
module CacheStore {
  import opened Options
  import opened Models

  /** Whatever other code keeps in the `line_items` and `market_cap`
      namespaces; the adapter never reads or writes them except to clear them. */
  type Foreign = string

  datatype Cache = Cache(
    prices: map<string, seq<Price>>,
    financialMetrics: map<string, seq<FinancialMetrics>>,
    lineItems: map<string, Foreign>,
    marketCap: map<string, Foreign>,
    insiderTrades: map<string, seq<InsiderTrade>>)

  /** The cache as the module starts: every namespace empty. */
  const Initial: Cache := Cache(map[], map[], map[], map[], map[])

  /** `clear_cache()`: afterwards no key of any namespace is present. */
  function Clear(c: Cache): (r: Cache)
    ensures forall k :: k !in r.prices && k !in r.financialMetrics && k !in r.insiderTrades
    ensures forall k :: k !in r.lineItems && k !in r.marketCap
  {
    Initial
  }

  /** What one fetcher call returns, the cache it leaves behind, and whether
      it called the provider. */
  datatype Call<T> = Call(result: seq<T>, cache: Cache, consulted: bool)

  /** One namespace after a memoized lookup. */
  datatype Step<T> = Step(result: seq<T>, namespace: map<string, seq<T>>, consulted: bool)

  /** The memoization discipline the three fetchers share: a present `key` is
      returned as stored without calling the provider; otherwise the provider
      is called and its transformed result `fetched` is stored and returned,
      unless it failed or was empty (`None`), in which case `[]` is returned
      and nothing is stored. */
  function Memo<T>(ns: map<string, seq<T>>, key: string, fetched: Option<seq<T>>): (s: Step<T>)
    ensures s.consulted <==> key !in ns
    ensures !s.consulted ==> s.result == ns[key]
    ensures s.consulted ==> s.result == fetched.GetOr([]) && (key in s.namespace <==> fetched.Some?)
    ensures forall k | k in ns :: k in s.namespace && s.namespace[k] == ns[k]
    ensures forall k | k in s.namespace && k != key :: k in ns
    ensures key in s.namespace ==> s.namespace[key] == s.result
  {
    if key in ns then Step(ns[key], ns, false)
    else
      match fetched
      case None => Step([], ns, true)
      case Some(v) => Step(v, ns[key := v], true)
  }

  /** Calling again with the same key after a call that left the key stored
      returns the same list, does not call the provider, and changes nothing,
      whatever the provider would have produced. */
  lemma MemoHitsAfterStore<T>(ns: map<string, seq<T>>, key: string, f1: Option<seq<T>>, f2: Option<seq<T>>)
    requires key in Memo(ns, key, f1).namespace
    ensures var s1 := Memo(ns, key, f1);
            var s2 := Memo(s1.namespace, key, f2);
            !s2.consulted && s2.result == s1.result && s2.namespace == s1.namespace
  {
  }
}

=== FILE: insider.dfy ===
/** `yf_get_insider_trades`: the provider's insider-transactions table,
    filtered by filing date, turned into `InsiderTrade` records, capped at
    `limit`, and memoized under `"{ticker}_{end_date}_{start_date}_{limit}"`. */
module Insider {
  import opened Options
  import opened Strings
  import opened Provider
  import opened Models
  import opened CacheStore

  /** The cap used when the caller gives none. */
  const DefaultLimit: nat := 1000

  /** Python's `str(x)` for an optional string: `None` renders as "None". */
  function Render(x: Option<string>): string {
    match x
    case None => "None"
    case Some(s) => s
  }

  /** The cache key of an insider-trade request. */
  function InsiderKey(ticker: string, endDate: string, startDate: Option<string>, limit: nat): (k: string)
    ensures |k| == |ticker| + |endDate| + |Render(startDate)| + |Decimal(limit)| + 3
    ensures k[..|ticker|] == ticker && k[|ticker|] == '_'
    ensures k[|ticker| + 1..|ticker| + 1 + |endDate|] == endDate && k[|ticker| + 1 + |endDate|] == '_'
    ensures k[|ticker| + 2 + |endDate|..|ticker| + 2 + |endDate| + |Render(startDate)|] == Render(startDate)
    ensures k[|k| - |Decimal(limit)|..] == Decimal(limit) && k[|k| - |Decimal(limit)| - 1] == '_'
  {
    ticker + "_" + endDate + "_" + Render(startDate) + "_" + Decimal(limit)
  }

  /** A request that leaves the cap at its default is stored under a key
      ending in "_1000". */
  lemma DefaultLimitKey(ticker: string, endDate: string, startDate: Option<string>)
    ensures var k := InsiderKey(ticker, endDate, startDate, DefaultLimit);
            |k| >= 5 && k[|k| - 5..] == "_1000"
  {
  }

  /** The key is not injective: an absent start date and the literal start
      date "None" share an entry. */
  lemma KeyConflatesNoneWithItsName(ticker: string, endDate: string, limit: nat)
    ensures InsiderKey(ticker, endDate, None, limit) == InsiderKey(ticker, endDate, Some("None"), limit)
  {
  }

  /** With the other parameters fixed, different caps never share an entry. */
  lemma KeySeparatesLimits(ticker: string, endDate: string, startDate: Option<string>, l1: nat, l2: nat)
    requires InsiderKey(ticker, endDate, startDate, l1) == InsiderKey(ticker, endDate, startDate, l2)
    ensures l1 == l2
  {
    var prefix := ticker + "_" + endDate + "_" + Render(startDate) + "_";
    assert InsiderKey(ticker, endDate, startDate, l1)[|prefix|..] == Decimal(l1);
    assert InsiderKey(ticker, endDate, startDate, l2)[|prefix|..] == Decimal(l2);
    DecimalInjective(l1, l2);
  }

  /** Python truthiness of an optional string. */
  predicate Given(x: Option<string>) {
    x.Some? && x.value != ""
  }

  /** The two `continue` guards of the loop: a row with a non-empty filing
      date before a given start date, or after a given end date, is dropped. */
  predicate Skipped(filing: string, startDate: Option<string>, endDate: string): (b: bool)
    ensures b <==> !InWindow(filing, startDate, endDate)
  {
    KeptIffInWindow(filing, startDate, endDate);
    SkipGuards(filing, startDate, endDate)
  }

  /** The guards exactly as the loop tests them. */
  predicate SkipGuards(filing: string, startDate: Option<string>, endDate: string) {
    || (Given(startDate) && filing != "" && Less(filing, startDate.value))
    || (endDate != "" && filing != "" && Less(endDate, filing))
  }

  /** The inclusive date window under Python's string order; an empty filing
      date is always inside. */
  predicate InWindow(filing: string, startDate: Option<string>, endDate: string) {
    || filing == ""
    || ((!Given(startDate) || AtMost(startDate.value, filing)) && (endDate == "" || AtMost(filing, endDate)))
  }

  /** A row survives the guards exactly when its filing date is in the window;
      both bounds are inclusive. */
  lemma KeptIffInWindow(filing: string, startDate: Option<string>, endDate: string)
    ensures !SkipGuards(filing, startDate, endDate) <==> InWindow(filing, startDate, endDate)
  {
    if Given(startDate) {
      NotLessIsAtMost(filing, startDate.value);
    }
    NotLessIsAtMost(endDate, filing);
  }

  /** `s` and `t` differ at most in the case of ASCII letters. */
  predicate SameIgnoringCase(s: string, t: string) {
    |s| == |t| && forall i :: 0 <= i < |s| ==> LowerChar(s[i]) == LowerChar(t[i])
  }

  /** The case-insensitive "director" test on the filer's relation. */
  function IsBoardDirector(relation: string): (b: bool)
    ensures b <==> Occurs("director", Lower(relation))
  {
    ContainsIff("director", Lower(relation));
    Contains("director", Lower(relation))
  }

  /** The director test ignores case: "Director", "DIRECTOR" and "director"
      classify alike. */
  lemma DirectorTestIgnoresCase(s: string, t: string)
    requires SameIgnoringCase(s, t)
    ensures IsBoardDirector(s) == IsBoardDirector(t)
  {
    assert Lower(s) == Lower(t);
  }

  /** The `InsiderTrade(...)` built for one row. */
  function TradeOf(ticker: string, row: InsiderRow): (t: InsiderTrade)
    ensures t.ticker == ticker && t.issuer == ticker
    ensures t.name == row.filerName.GetOr("") && t.title == row.filerRelation.GetOr("")
    ensures t.isBoardDirector <==> Occurs("director", Lower(t.title))
    ensures t.filingDate == row.filingDate.Text() && t.transactionDate == row.transactionDate.Text()
    ensures row.shares.Some? ==> t.transactionShares == row.shares.value
    ensures row.shares.None? ==> t.transactionShares == 0.0
    ensures row.value.Some? ==> t.transactionPricePerShare == row.value.value
    ensures row.value.None? ==> t.transactionPricePerShare == 0.0
    ensures row.shares.Some? && row.value.Some? ==>
              t.transactionValue == row.shares.value * row.value.value
              && t.transactionValue == t.transactionShares * t.transactionPricePerShare
    ensures row.shares.None? || row.value.None? ==> t.transactionValue == 0.0
    ensures t.sharesOwnedBeforeTransaction.None? && t.sharesOwnedAfterTransaction.None?
    ensures t.securityTitle.None?
  {
    var title := row.filerRelation.GetOr("");
    InsiderTrade(
      ticker := ticker,
      issuer := ticker,
      name := row.filerName.GetOr(""),
      title := title,
      isBoardDirector := IsBoardDirector(title),
      transactionDate := row.transactionDate.Text(),
      transactionShares := row.shares.GetOr(0.0),
      transactionPricePerShare := row.value.GetOr(0.0),
      transactionValue :=
        if row.shares.Some? && row.value.Some? then row.shares.value * row.value.value else 0.0,
      sharesOwnedBeforeTransaction := None,
      sharesOwnedAfterTransaction := None,
      securityTitle := None,
      filingDate := row.filingDate.Text())
  }

  /** What one loop iteration appends: nothing for a skipped row, otherwise
      the row's trade. */
  function Emit(ticker: string, row: InsiderRow, startDate: Option<string>, endDate: string)
    : (out: seq<InsiderTrade>)
    ensures |out| <= 1
    ensures out != [] <==> InWindow(row.filingDate.Text(), startDate, endDate)
    ensures out != [] ==> out[0] == TradeOf(ticker, row)
  {
    if Skipped(row.filingDate.Text(), startDate, endDate) then [] else [TradeOf(ticker, row)]
  }

  /** 100 shares at 2.5 give a value of 250; a missing share count gives 0. */
  lemma TradeValueExample(ticker: string, filing: Stamp, traded: Stamp)
    ensures TradeOf(ticker, InsiderRow(filing, traded, None, None, Some(100.0), Some(2.5))).transactionValue
            == 250.0
    ensures TradeOf(ticker, InsiderRow(filing, traded, None, None, None, Some(2.5))).transactionValue == 0.0
  {
  }

  /** The loop over `transactions_df.iterrows()`: the trades of the rows the
      guards keep, in row order. */
  function Select(ticker: string, rows: seq<InsiderRow>, startDate: Option<string>, endDate: string)
    : (trades: seq<InsiderTrade>)
    ensures |trades| <= |rows|
    ensures forall t | t in trades :: InWindow(t.filingDate, startDate, endDate)
  {
    if rows == [] then []
    else Emit(ticker, rows[0], startDate, endDate) + Select(ticker, rows[1..], startDate, endDate)
  }

  /** Selection distributes over concatenation, so trades come out in the
      order of their rows. */
  lemma {:induction false} SelectAppend(ticker: string, a: seq<InsiderRow>, b: seq<InsiderRow>,
                                        startDate: Option<string>, endDate: string)
    ensures Select(ticker, a + b, startDate, endDate)
            == Select(ticker, a, startDate, endDate) + Select(ticker, b, startDate, endDate)
    decreases |a|
  {
    if a == [] {
      assert a + b == b;
    } else {
      var ab := a + b;
      assert ab[0] == a[0] && ab[1..] == a[1..] + b;
      var head := Emit(ticker, a[0], startDate, endDate);
      calc {
        Select(ticker, ab, startDate, endDate);
        head + Select(ticker, a[1..] + b, startDate, endDate);
        { SelectAppend(ticker, a[1..], b, startDate, endDate); }
        head + (Select(ticker, a[1..], startDate, endDate) + Select(ticker, b, startDate, endDate));
        (head + Select(ticker, a[1..], startDate, endDate)) + Select(ticker, b, startDate, endDate);
      }
    }
  }

  /** A trade is selected exactly when it is built from a row whose filing
      date is in the window. */
  lemma {:induction false} SelectMembership(ticker: string, rows: seq<InsiderRow>,
                                            startDate: Option<string>, endDate: string, t: InsiderTrade)
    ensures t in Select(ticker, rows, startDate, endDate) <==>
            exists i :: 0 <= i < |rows| && InWindow(rows[i].filingDate.Text(), startDate, endDate)
                                        && t == TradeOf(ticker, rows[i])
    decreases |rows|
  {
    if rows != [] {
      var tail := rows[1..];
      KeptIffInWindow(rows[0].filingDate.Text(), startDate, endDate);
      SelectMembership(ticker, tail, startDate, endDate, t);
      if t in Select(ticker, rows, startDate, endDate) {
        if t in Select(ticker, tail, startDate, endDate) {
          var j :| 0 <= j < |tail| && InWindow(tail[j].filingDate.Text(), startDate, endDate)
                                   && t == TradeOf(ticker, tail[j]);
          assert rows[j + 1] == tail[j];
        } else {
          assert InWindow(rows[0].filingDate.Text(), startDate, endDate) && t == TradeOf(ticker, rows[0]);
        }
      }
      if exists i :: 0 <= i < |rows| && InWindow(rows[i].filingDate.Text(), startDate, endDate)
                                     && t == TradeOf(ticker, rows[i]) {
        var i :| 0 <= i < |rows| && InWindow(rows[i].filingDate.Text(), startDate, endDate)
                                 && t == TradeOf(ticker, rows[i]);
        if i > 0 {
          assert tail[i - 1] == rows[i];
        }
      }
    }
  }

  /** `trades[:limit] if limit else trades`: the first `limit` trades, or all
      of them when `limit` is 0. */
  function Cap<T>(trades: seq<T>, limit: nat): (r: seq<T>)
    ensures limit == 0 ==> r == trades
    ensures limit > 0 ==> |r| == (if limit < |trades| then limit else |trades|)
    ensures r == trades[..|r|]
  {
    if limit != 0 && limit < |trades| then trades[..limit] else trades
  }

  /** The capped trades to store, or `None` when the provider raised or
      returned no table. */
  function Fetched(ticker: string, endDate: string, startDate: Option<string>, limit: nat,
                   response: Response<seq<InsiderRow>>): (r: Option<seq<InsiderTrade>>)
    ensures r.Some? <==> response.Data? && |response.value| > 0
    ensures r.Some? ==> r.value == Cap(Select(ticker, response.value, startDate, endDate), limit)
  {
    match response
    case Data(rows) => if |rows| == 0 then None else Some(Cap(Select(ticker, rows, startDate, endDate), limit))
    case _ => None
  }

  /** `yf_get_insider_trades(ticker, end_date, start_date, limit)` against
      cache `c`. */
  function GetInsiderTrades(c: Cache, ticker: string, endDate: string, startDate: Option<string>,
                            limit: nat, response: Response<seq<InsiderRow>>): (r: Call<InsiderTrade>)
    ensures var key := InsiderKey(ticker, endDate, startDate, limit);
            && (r.consulted <==> key !in c.insiderTrades)
            && (!r.consulted ==> r.result == c.insiderTrades[key] && r.cache == c)
            && (r.consulted && (response.Data? ==> |response.value| == 0) ==>
                  r.result == [] && r.cache == c)
            && (r.consulted && response.Data? && |response.value| > 0 ==>
                  r.result == Cap(Select(ticker, response.value, startDate, endDate), limit)
                  && r.cache == c.(insiderTrades := c.insiderTrades[key := r.result]))
    ensures r.consulted ==> forall t | t in r.result :: InWindow(t.filingDate, startDate, endDate)
    ensures r.consulted && limit > 0 ==> |r.result| <= limit
  {
    var s := Memo(c.insiderTrades, InsiderKey(ticker, endDate, startDate, limit),
                  Fetched(ticker, endDate, startDate, limit, response));
    Call(s.result, c.(insiderTrades := s.namespace), s.consulted)
  }

  /** Unlike a failed or empty provider answer, a table whose rows all fall
      outside the window is stored: the empty list is cached, and the same
      request does not call the provider again. */
  lemma EmptySelectionIsCached(c: Cache, ticker: string, endDate: string, startDate: Option<string>,
                               limit: nat, rows: seq<InsiderRow>, again: Response<seq<InsiderRow>>)
    requires InsiderKey(ticker, endDate, startDate, limit) !in c.insiderTrades
    requires |rows| > 0
    requires forall i | 0 <= i < |rows| :: !InWindow(rows[i].filingDate.Text(), startDate, endDate)
    ensures var a := GetInsiderTrades(c, ticker, endDate, startDate, limit, Data(rows));
            var b := GetInsiderTrades(a.cache, ticker, endDate, startDate, limit, again);
            a.result == [] && !b.consulted && b.result == []
  {
    var sel := Select(ticker, rows, startDate, endDate);
    if sel != [] {
      SelectMembership(ticker, rows, startDate, endDate, sel[0]);
    }
  }
}

=== FILE: metrics.dfy ===
/** `yf_get_financial_metrics`: the provider's fundamentals dictionary mapped
    onto one `FinancialMetrics` snapshot, memoized under the ticker alone. */
module Metrics {
  import opened Options
  import opened Provider
  import opened Models
  import opened CacheStore

  /** The period label used when the caller gives none. */
  const DefaultPeriod: string := "ttm"

  /** How a canonical field is obtained from the provider dictionary. */
  datatype Rule =
    | Ratio(key: string)   // the provider value as is, or unavailable
    | Rate(key: string)    // a fraction turned into a percentage
    | Unavailable          // the provider has no equivalent

  /** The declared mapping table from canonical fields to provider keys. */
  function RuleOf(f: Field): Rule {
    match f
    case MarketCap => Ratio("marketCap")
    case EnterpriseValue => Ratio("enterpriseValue")
    case PriceToEarningsRatio => Ratio("trailingPE")
    case PriceToBookRatio => Ratio("priceToBook")
    case PriceToSalesRatio => Ratio("priceToSalesTrailing12Months")
    case EnterpriseValueToEbitdaRatio => Ratio("enterpriseToEbitda")
    case EnterpriseValueToRevenueRatio => Ratio("enterpriseToRevenue")
    case FreeCashFlowYield => Unavailable
    case PegRatio => Ratio("pegRatio")
    case GrossMargin => Rate("grossMargins")
    case OperatingMargin => Rate("operatingMargins")
    case NetMargin => Rate("profitMargins")
    case ReturnOnEquity => Rate("returnOnEquity")
    case ReturnOnAssets => Rate("returnOnAssets")
    case ReturnOnInvestedCapital => Unavailable
    case AssetTurnover => Unavailable
    case InventoryTurnover => Unavailable
    case ReceivablesTurnover => Unavailable
    case DaysSalesOutstanding => Unavailable
    case OperatingCycle => Unavailable
    case WorkingCapitalTurnover => Unavailable
    case CurrentRatio => Ratio("currentRatio")
    case QuickRatio => Ratio("quickRatio")
    case CashRatio => Unavailable
    case OperatingCashFlowRatio => Unavailable
    case DebtToEquity => Ratio("debtToEquity")
    case DebtToAssets => Unavailable
    case InterestCoverage => Unavailable
    case RevenueGrowth => Rate("revenueGrowth")
    case EarningsGrowth => Rate("earningsGrowth")
    case BookValueGrowth => Unavailable
    case EarningsPerShareGrowth => Rate("earningsQuarterlyGrowth")
    case FreeCashFlowGrowth => Unavailable
    case OperatingIncomeGrowth => Unavailable
    case EbitdaGrowth => Unavailable
    case PayoutRatio => Rate("payoutRatio")
    case EarningsPerShare => Ratio("trailingEps")
    case BookValuePerShare => Ratio("bookValue")
    case FreeCashFlowPerShare => Unavailable
  }

  /** `info.get(key)` on the numeric entries. */
  function Lookup(info: Info, key: string): (v: Option<real>)
    ensures v.Some? <==> key in info.numbers
    ensures v.Some? ==> v.value == info.numbers[key]
  {
    if key in info.numbers then Some(info.numbers[key]) else None
  }

  /** `info.get(key, 0) * 100 if info.get(key) else None`: the test is
      truthiness, so a stored zero is unavailable just like a missing key. */
  function Percent(info: Info, key: string): (v: Option<real>)
    ensures v.Some? <==> key in info.numbers && info.numbers[key] != 0.0
    ensures v.Some? ==> v.value == 100.0 * info.numbers[key]
  {
    match Lookup(info, key)
    case Some(x) => if x != 0.0 then Some(x * 100.0) else None
    case None => None
  }

  /** `end_date if end_date else <today>`. */
  function ReportPeriod(endDate: Option<string>, today: string): (p: string)
    ensures endDate.Some? && endDate.value != "" ==> p == endDate.value
    ensures endDate.None? || endDate.value == "" ==> p == today
  {
    if endDate.Some? && endDate.value != "" then endDate.value else today
  }

  /** The `FinancialMetrics(...)` construction, field by field. */
  function Snapshot(ticker: string, endDate: Option<string>, period: string, today: string,
                    info: Info): (m: FinancialMetrics)
    ensures m.ticker == ticker && m.period == period
    ensures m.reportPeriod == ReportPeriod(endDate, today)
    ensures m.currency == (if info.currency.Some? then info.currency.value else "USD")
  {
    FinancialMetrics(
      ticker := ticker,
      reportPeriod := ReportPeriod(endDate, today),
      period := period,
      currency := info.currency.GetOr("USD"),
      marketCap := Lookup(info, "marketCap"),
      enterpriseValue := Lookup(info, "enterpriseValue"),
      priceToEarningsRatio := Lookup(info, "trailingPE"),
      priceToBookRatio := Lookup(info, "priceToBook"),
      priceToSalesRatio := Lookup(info, "priceToSalesTrailing12Months"),
      enterpriseValueToEbitdaRatio := Lookup(info, "enterpriseToEbitda"),
      enterpriseValueToRevenueRatio := Lookup(info, "enterpriseToRevenue"),
      freeCashFlowYield := None,
      pegRatio := Lookup(info, "pegRatio"),
      grossMargin := Percent(info, "grossMargins"),
      operatingMargin := Percent(info, "operatingMargins"),
      netMargin := Percent(info, "profitMargins"),
      returnOnEquity := Percent(info, "returnOnEquity"),
      returnOnAssets := Percent(info, "returnOnAssets"),
      returnOnInvestedCapital := None,
      assetTurnover := None,
      inventoryTurnover := None,
      receivablesTurnover := None,
      daysSalesOutstanding := None,
      operatingCycle := None,
      workingCapitalTurnover := None,
      currentRatio := Lookup(info, "currentRatio"),
      quickRatio := Lookup(info, "quickRatio"),
      cashRatio := None,
      operatingCashFlowRatio := None,
      debtToEquity := Lookup(info, "debtToEquity"),
      debtToAssets := None,
      interestCoverage := None,
      revenueGrowth := Percent(info, "revenueGrowth"),
      earningsGrowth := Percent(info, "earningsGrowth"),
      bookValueGrowth := None,
      earningsPerShareGrowth := Percent(info, "earningsQuarterlyGrowth"),
      freeCashFlowGrowth := None,
      operatingIncomeGrowth := None,
      ebitdaGrowth := None,
      payoutRatio := Percent(info, "payoutRatio"),
      earningsPerShare := Lookup(info, "trailingEps"),
      bookValuePerShare := Lookup(info, "bookValue"),
      freeCashFlowPerShare := None)
  }

  /** The snapshot follows the declared table: an unavailable field is
      always `None`; a ratio field is the provider value when the key is
      present; a rate field is the provider fraction times 100 when the key
      is present and nonzero, and `None` otherwise. */
  lemma SnapshotFollowsTable(ticker: string, endDate: Option<string>, period: string, today: string,
                             info: Info, f: Field)
    ensures var v := Snapshot(ticker, endDate, period, today, info).Get(f);
            match RuleOf(f)
            case Unavailable => v == None
            case Ratio(k) =>
              && (v.Some? <==> k in info.numbers)
              && (v.Some? ==> v.value == info.numbers[k])
            case Rate(k) =>
              && (v.Some? <==> k in info.numbers && info.numbers[k] != 0.0)
              && (v.Some? ==> v.value == 100.0 * info.numbers[k])
  {
  }

  /** A rate field is never a fabricated zero, and the provider's fraction can
      be recovered from it. */
  lemma RateRoundTrip(ticker: string, endDate: Option<string>, period: string, today: string,
                      info: Info, f: Field)
    requires RuleOf(f).Rate?
    ensures var v := Snapshot(ticker, endDate, period, today, info).Get(f);
            v.Some? ==> v.value != 0.0 && v.value / 100.0 == info.numbers[RuleOf(f).key]
  {
    SnapshotFollowsTable(ticker, endDate, period, today, info, f);
  }

  /** A provider gross margin of 0.45 becomes 45.0; an absent one, or a zero,
      becomes unavailable rather than 0. */
  lemma GrossMarginExample(ticker: string, today: string)
    ensures Snapshot(ticker, None, DefaultPeriod, today, Info(map["grossMargins" := 0.45], None)).grossMargin
            == Some(45.0)
    ensures Snapshot(ticker, None, DefaultPeriod, today, Info(map[], None)).grossMargin == None
    ensures Snapshot(ticker, None, DefaultPeriod, today, Info(map["grossMargins" := 0.0], None)).grossMargin
            == None
  {
  }

  /** The provider keys the table reads. */
  const TableKeys: set<string> := {
    "marketCap", "enterpriseValue", "trailingPE", "priceToBook", "priceToSalesTrailing12Months",
    "enterpriseToEbitda", "enterpriseToRevenue", "pegRatio", "grossMargins", "operatingMargins",
    "profitMargins", "returnOnEquity", "returnOnAssets", "currentRatio", "quickRatio",
    "debtToEquity", "revenueGrowth", "earningsGrowth", "earningsQuarterlyGrowth", "payoutRatio",
    "trailingEps", "bookValue"}

  /** Every key the table names is one of `TableKeys`. */
  lemma TableKeysCoverRules(f: Field)
    requires !RuleOf(f).Unavailable?
    ensures RuleOf(f).key in TableKeys
  {
  }

  /** The snapshot depends on the dictionary only through `TableKeys` and the
      currency entry: every other provider key is ignored. */
  lemma SnapshotReadsOnlyTableKeys(ticker: string, endDate: Option<string>, period: string,
                                   today: string, i1: Info, i2: Info)
    requires i1.currency == i2.currency
    requires forall k | k in TableKeys :: Lookup(i1, k) == Lookup(i2, k)
    ensures Snapshot(ticker, endDate, period, today, i1) == Snapshot(ticker, endDate, period, today, i2)
  {
  }

  /** The one-element list stored and returned, or `None` when there is
      nothing to store. */
  function Fetched(ticker: string, endDate: Option<string>, period: string, today: string,
                   response: Response<Info>): (r: Option<seq<FinancialMetrics>>)
    ensures r.Some? <==> response.Data?
    ensures r.Some? ==> |r.value| == 1 && r.value[0] == Snapshot(ticker, endDate, period, today, response.value)
  {
    match response
    case Data(info) => Some([Snapshot(ticker, endDate, period, today, info)])
    case _ => None
  }

  /** `yf_get_financial_metrics(ticker, end_date, period, limit)` against cache
      `c`; `today` is the date the process reads from its clock. */
  function GetFinancialMetrics(c: Cache, ticker: string, endDate: Option<string>, period: string,
                               limit: int, today: string, response: Response<Info>)
    : (r: Call<FinancialMetrics>)
    ensures var key := ticker;
            && (r.consulted <==> key !in c.financialMetrics)
            && (!r.consulted ==> r.result == c.financialMetrics[key] && r.cache == c)
            && (r.consulted && !response.Data? ==> r.result == [] && r.cache == c)
            && (r.consulted && response.Data? ==>
                  |r.result| == 1
                  && r.result[0] == Snapshot(ticker, endDate, period, today, response.value)
                  && r.cache == c.(financialMetrics := c.financialMetrics[key := r.result]))
  {
    var s := Memo(c.financialMetrics, ticker, Fetched(ticker, endDate, period, today, response));
    Call(s.result, c.(financialMetrics := s.namespace), s.consulted)
  }

  /** Two calls for the same ticker: once the first has stored a snapshot,
      the second returns it (with the first call's report period and period
      label) whatever its own end date, period, limit, date or provider. */
  lemma MetricsKeyedByTickerOnly(c: Cache, ticker: string,
                                 e1: Option<string>, p1: string, l1: int, d1: string, r1: Response<Info>,
                                 e2: Option<string>, p2: string, l2: int, d2: string, r2: Response<Info>)
    requires ticker !in c.financialMetrics
    requires r1.Data?
    ensures var a := GetFinancialMetrics(c, ticker, e1, p1, l1, d1, r1);
            var b := GetFinancialMetrics(a.cache, ticker, e2, p2, l2, d2, r2);
            && a.consulted && !b.consulted
            && b.result == a.result && |b.result| == 1
            && b.result[0].reportPeriod == ReportPeriod(e1, d1)
            && b.result[0].period == p1
  {
  }
}

=== FILE: models.dfy ===
/** The application's records that the adapter builds (`Price`,
    `FinancialMetrics`, `InsiderTrade`), with exactly the fields the adapter
    fills in. Their defining module, src/data/models.py, is not part of this
    model; its validation is not modelled. */
module Models {
  import opened Options

  /** One trading day. */
  datatype Price = Price(open: real, close: real, high: real, low: real, volume: int, time: string)

  /** The canonical metric fields of a `FinancialMetrics` snapshot. */
  datatype Field =
    | MarketCap | EnterpriseValue | PriceToEarningsRatio | PriceToBookRatio
    | PriceToSalesRatio | EnterpriseValueToEbitdaRatio | EnterpriseValueToRevenueRatio
    | FreeCashFlowYield | PegRatio | GrossMargin | OperatingMargin | NetMargin
    | ReturnOnEquity | ReturnOnAssets | ReturnOnInvestedCapital | AssetTurnover
    | InventoryTurnover | ReceivablesTurnover | DaysSalesOutstanding | OperatingCycle
    | WorkingCapitalTurnover | CurrentRatio | QuickRatio | CashRatio
    | OperatingCashFlowRatio | DebtToEquity | DebtToAssets | InterestCoverage
    | RevenueGrowth | EarningsGrowth | BookValueGrowth | EarningsPerShareGrowth
    | FreeCashFlowGrowth | OperatingIncomeGrowth | EbitdaGrowth | PayoutRatio
    | EarningsPerShare | BookValuePerShare | FreeCashFlowPerShare

  /** A point-in-time fundamentals snapshot; `None` marks a value that is
      unavailable. */
  datatype FinancialMetrics = FinancialMetrics(
    ticker: string,
    reportPeriod: string,
    period: string,
    currency: string,
    marketCap: Option<real>,
    enterpriseValue: Option<real>,
    priceToEarningsRatio: Option<real>,
    priceToBookRatio: Option<real>,
    priceToSalesRatio: Option<real>,
    enterpriseValueToEbitdaRatio: Option<real>,
    enterpriseValueToRevenueRatio: Option<real>,
    freeCashFlowYield: Option<real>,
    pegRatio: Option<real>,
    grossMargin: Option<real>,
    operatingMargin: Option<real>,
    netMargin: Option<real>,
    returnOnEquity: Option<real>,
    returnOnAssets: Option<real>,
    returnOnInvestedCapital: Option<real>,
    assetTurnover: Option<real>,
    inventoryTurnover: Option<real>,
    receivablesTurnover: Option<real>,
    daysSalesOutstanding: Option<real>,
    operatingCycle: Option<real>,
    workingCapitalTurnover: Option<real>,
    currentRatio: Option<real>,
    quickRatio: Option<real>,
    cashRatio: Option<real>,
    operatingCashFlowRatio: Option<real>,
    debtToEquity: Option<real>,
    debtToAssets: Option<real>,
    interestCoverage: Option<real>,
    revenueGrowth: Option<real>,
    earningsGrowth: Option<real>,
    bookValueGrowth: Option<real>,
    earningsPerShareGrowth: Option<real>,
    freeCashFlowGrowth: Option<real>,
    operatingIncomeGrowth: Option<real>,
    ebitdaGrowth: Option<real>,
    payoutRatio: Option<real>,
    earningsPerShare: Option<real>,
    bookValuePerShare: Option<real>,
    freeCashFlowPerShare: Option<real>)
  {
    /** The value of canonical field `f`. */
    function Get(f: Field): Option<real> {
      match f
      case MarketCap => marketCap
      case EnterpriseValue => enterpriseValue
      case PriceToEarningsRatio => priceToEarningsRatio
      case PriceToBookRatio => priceToBookRatio
      case PriceToSalesRatio => priceToSalesRatio
      case EnterpriseValueToEbitdaRatio => enterpriseValueToEbitdaRatio
      case EnterpriseValueToRevenueRatio => enterpriseValueToRevenueRatio
      case FreeCashFlowYield => freeCashFlowYield
      case PegRatio => pegRatio
      case GrossMargin => grossMargin
      case OperatingMargin => operatingMargin
      case NetMargin => netMargin
      case ReturnOnEquity => returnOnEquity
      case ReturnOnAssets => returnOnAssets
      case ReturnOnInvestedCapital => returnOnInvestedCapital
      case AssetTurnover => assetTurnover
      case InventoryTurnover => inventoryTurnover
      case ReceivablesTurnover => receivablesTurnover
      case DaysSalesOutstanding => daysSalesOutstanding
      case OperatingCycle => operatingCycle
      case WorkingCapitalTurnover => workingCapitalTurnover
      case CurrentRatio => currentRatio
      case QuickRatio => quickRatio
      case CashRatio => cashRatio
      case OperatingCashFlowRatio => operatingCashFlowRatio
      case DebtToEquity => debtToEquity
      case DebtToAssets => debtToAssets
      case InterestCoverage => interestCoverage
      case RevenueGrowth => revenueGrowth
      case EarningsGrowth => earningsGrowth
      case BookValueGrowth => bookValueGrowth
      case EarningsPerShareGrowth => earningsPerShareGrowth
      case FreeCashFlowGrowth => freeCashFlowGrowth
      case OperatingIncomeGrowth => operatingIncomeGrowth
      case EbitdaGrowth => ebitdaGrowth
      case PayoutRatio => payoutRatio
      case EarningsPerShare => earningsPerShare
      case BookValuePerShare => bookValuePerShare
      case FreeCashFlowPerShare => freeCashFlowPerShare
    }
  }

  /** One insider transaction. */
  datatype InsiderTrade = InsiderTrade(
    ticker: string,
    issuer: string,
    name: string,
    title: string,
    isBoardDirector: bool,
    transactionDate: string,
    transactionShares: real,
    transactionPricePerShare: real,
    transactionValue: real,
    sharesOwnedBeforeTransaction: Option<real>,
    sharesOwnedAfterTransaction: Option<real>,
    securityTitle: Option<string>,
    filingDate: string)
}

=== FILE: options.dfy ===
/** Python's `Optional[...]`: a value that may be `None`. */
module Options {

  datatype Option<+T> = None | Some(value: T) {

    /** The value, or `default` when it is `None`; the `x or default` and
        `d.get(key, default)` idiom of the adapter. */
    function GetOr(default: T): T {
      match this
      case Some(v) => v
      case None => default
    }
  }
}

=== FILE: prices.dfy ===
/** `yf_get_prices`: ticker and date range to the provider's daily bars,
    memoized under `"{ticker}_{start_date}_{end_date}"`. */
module Prices {
  import opened Options
  import opened Provider
  import opened Models
  import opened CacheStore

  /** The cache key of a price request. */
  function PriceKey(ticker: string, startDate: string, endDate: string): (k: string)
    ensures |k| == |ticker| + |startDate| + |endDate| + 2
    ensures k[..|ticker|] == ticker && k[|ticker|] == '_'
    ensures k[|ticker| + 1..|ticker| + 1 + |startDate|] == startDate
    ensures k[|k| - |endDate|..] == endDate && k[|k| - |endDate| - 1] == '_'
  {
    ticker + "_" + startDate + "_" + endDate
  }

  /** For dates of one fixed width, such as `YYYY-MM-DD`, the price key
      determines the request: equal keys mean equal ticker, start and end. */
  lemma PriceKeyDeterminesRequest(t1: string, s1: string, e1: string, t2: string, s2: string, e2: string)
    requires |s1| == |s2| && |e1| == |e2|
    requires PriceKey(t1, s1, e1) == PriceKey(t2, s2, e2)
    ensures t1 == t2 && s1 == s2 && e1 == e2
  {
  }

  /** One OHLCV row as a `Price`. */
  function PriceOf(row: PriceRow): Price {
    Price(row.open, row.close, row.high, row.low, row.volume, row.date)
  }

  /** The row a `Price` was made from. */
  function RowOf(p: Price): PriceRow {
    PriceRow(p.time, p.open, p.high, p.low, p.close, p.volume)
  }

  /** The loop over `df.iterrows()`: one `Price` per row, in row order, each
      field taken from the same column of the same row. */
  function ToPrices(rows: seq<PriceRow>): (prices: seq<Price>)
    ensures |prices| == |rows|
    ensures forall i :: 0 <= i < |rows| ==>
              && prices[i].open == rows[i].open
              && prices[i].close == rows[i].close
              && prices[i].high == rows[i].high
              && prices[i].low == rows[i].low
              && prices[i].volume == rows[i].volume
              && prices[i].time == rows[i].date
  {
    if rows == [] then [] else [PriceOf(rows[0])] + ToPrices(rows[1..])
  }

  function ToRows(prices: seq<Price>): seq<PriceRow> {
    if prices == [] then [] else [RowOf(prices[0])] + ToRows(prices[1..])
  }

  /** The transform loses nothing: the provider's rows, in order, can be read
      back from the prices. */
  lemma {:induction false} PricesRoundTrip(rows: seq<PriceRow>)
    ensures ToRows(ToPrices(rows)) == rows
  {
    if rows != [] {
      PricesRoundTrip(rows[1..]);
      assert ToPrices(rows)[1..] == ToPrices(rows[1..]);
    }
  }

  /** The transformed provider result, or `None` when there is nothing to
      store: the call raised or the frame is empty. */
  function Fetched(response: Response<seq<PriceRow>>): (r: Option<seq<Price>>)
    ensures r.Some? <==> response.Data? && |response.value| > 0
    ensures r.Some? ==> r.value == ToPrices(response.value) && |r.value| == |response.value|
  {
    match response
    case Data(rows) => if |rows| == 0 then None else Some(ToPrices(rows))
    case _ => None
  }

  /** `yf_get_prices(ticker, start_date, end_date)` against cache `c`, with the
      provider answering `response` if it is called. */
  function GetPrices(c: Cache, ticker: string, startDate: string, endDate: string,
                     response: Response<seq<PriceRow>>): (r: Call<Price>)
    ensures var key := PriceKey(ticker, startDate, endDate);
            && (r.consulted <==> key !in c.prices)
            && (!r.consulted ==> r.result == c.prices[key] && r.cache == c)
            && (r.consulted && (response.Data? ==> |response.value| == 0) ==>
                  r.result == [] && r.cache == c)
            && (r.consulted && response.Data? && |response.value| > 0 ==>
                  r.result == ToPrices(response.value)
                  && r.cache == c.(prices := c.prices[key := r.result]))
  {
    var s := Memo(c.prices, PriceKey(ticker, startDate, endDate), Fetched(response));
    Call(s.result, c.(prices := s.namespace), s.consulted)
  }

  /** A hit does not depend on what the provider would have answered. */
  lemma PricesHitIgnoresProvider(c: Cache, ticker: string, startDate: string, endDate: string,
                                 r1: Response<seq<PriceRow>>, r2: Response<seq<PriceRow>>)
    requires PriceKey(ticker, startDate, endDate) in c.prices
    ensures GetPrices(c, ticker, startDate, endDate, r1) == GetPrices(c, ticker, startDate, endDate, r2)
  {
  }

  /** Three daily bars for "AAPL" on an empty cache give three prices, the
      first carrying the first bar's values. */
  lemma ThreeBarsExample()
    ensures var rows := [PriceRow("2024-01-01", 150.0, 155.0, 148.0, 153.0, 1000000),
                         PriceRow("2024-01-02", 151.0, 156.0, 149.0, 154.0, 1100000),
                         PriceRow("2024-01-03", 152.0, 157.0, 150.0, 155.0, 1200000)];
            var r := GetPrices(Initial, "AAPL", "2024-01-01", "2024-01-31", Data(rows));
            && r.consulted && |r.result| == 3
            && r.result[0] == Price(150.0, 153.0, 155.0, 148.0, 1000000, "2024-01-01")
  {
  }
}

=== FILE: provider.dfy ===
/** What the external data provider hands the adapter. The provider itself
    (`yf.Ticker(...).history`, `.info`, `.insider_transactions`) is not
    modelled; each fetcher receives the outcome of its one call as a value. */
module Provider {
  import opened Options

  /** The outcome of one provider call: it raised, it returned nothing usable
      (`None`, an empty frame, an empty dict), or it returned data. */
  datatype Response<T> = Raised | NoData | Data(value: T)

  /** One row of the OHLCV history frame; `date` is its index already
      formatted `YYYY-MM-DD`. */
  datatype PriceRow = PriceRow(date: string, open: real, high: real, low: real, close: real, volume: int)

  /** A date cell of the insider-transactions frame: a timestamp (already
      formatted `YYYY-MM-DD`) or anything else. */
  datatype Stamp = Timestamp(formatted: string) | NotTimestamp {

    /** The adapter's `x.strftime('%Y-%m-%d') if isinstance(x, pd.Timestamp) else ''`. */
    function Text(): string {
      match this
      case Timestamp(s) => s
      case NotTimestamp => ""
    }
  }

  /** One row of the insider-transactions frame. A `None` number is a missing
      column or a cell for which `pd.notna` is false. */
  datatype InsiderRow = InsiderRow(
    filingDate: Stamp,
    transactionDate: Stamp,
    filerName: Option<string>,
    filerRelation: Option<string>,
    shares: Option<real>,
    value: Option<real>)

  /** The non-empty fundamentals dictionary: its numeric entries by provider
      key, and its `currency` entry if present. */
  datatype Info = Info(numbers: map<string, real>, currency: Option<string>)
}

=== FILE: session.dfy ===
/** Properties of successive calls sharing one cache: what the memo keeps,
    when the provider is called again, and what `clear_cache` forgets. */
module Session {
  import opened Options
  import opened Provider
  import opened CacheStore
  import Prices
  import Metrics
  import Insider

  /** What every stored entry looks like, given that failures and empty
      answers are never stored: a price entry is non-empty, and a metrics
      entry is the one snapshot of the ticker it is stored under. */
  ghost predicate Coherent(c: Cache) {
    && (forall k | k in c.prices :: c.prices[k] != [])
    && (forall k | k in c.financialMetrics ::
          |c.financialMetrics[k]| == 1 && c.financialMetrics[k][0].ticker == k)
  }

  lemma InitialIsCoherent()
    ensures Coherent(Initial)
  {
  }

  lemma ClearKeepsCoherent(c: Cache)
    ensures Coherent(Clear(c))
  {
  }

  lemma PricesKeepCoherent(c: Cache, ticker: string, startDate: string, endDate: string,
                           response: Response<seq<PriceRow>>)
    requires Coherent(c)
    ensures Coherent(Prices.GetPrices(c, ticker, startDate, endDate, response).cache)
  {
  }

  lemma MetricsKeepCoherent(c: Cache, ticker: string, endDate: Option<string>, period: string,
                            limit: int, today: string, response: Response<Info>)
    requires Coherent(c)
    ensures Coherent(Metrics.GetFinancialMetrics(c, ticker, endDate, period, limit, today, response).cache)
  {
  }

  lemma InsiderKeepsCoherent(c: Cache, ticker: string, endDate: string, startDate: Option<string>,
                             limit: nat, response: Response<seq<InsiderRow>>)
    requires Coherent(c)
    ensures Coherent(Insider.GetInsiderTrades(c, ticker, endDate, startDate, limit, response).cache)
  {
  }

  /** Two identical price requests: the second calls the provider exactly when
      the first returned nothing, and otherwise returns the first's list. */
  lemma PricesSecondCall(c: Cache, ticker: string, startDate: string, endDate: string,
                         r1: Response<seq<PriceRow>>, r2: Response<seq<PriceRow>>)
    requires Coherent(c)
    ensures var a := Prices.GetPrices(c, ticker, startDate, endDate, r1);
            var b := Prices.GetPrices(a.cache, ticker, startDate, endDate, r2);
            && (b.consulted <==> a.result == [])
            && (!b.consulted ==> b.result == a.result && b.cache == a.cache)
  {
  }

  /** Two metrics requests for one ticker: the second calls the provider
      exactly when the first returned nothing. */
  lemma MetricsSecondCall(c: Cache, ticker: string,
                          e1: Option<string>, p1: string, l1: int, d1: string, r1: Response<Info>,
                          e2: Option<string>, p2: string, l2: int, d2: string, r2: Response<Info>)
    requires Coherent(c)
    ensures var a := Metrics.GetFinancialMetrics(c, ticker, e1, p1, l1, d1, r1);
            var b := Metrics.GetFinancialMetrics(a.cache, ticker, e2, p2, l2, d2, r2);
            && (b.consulted <==> a.result == [])
            && (!b.consulted ==> b.result == a.result && b.cache == a.cache)
  {
  }

  /** Two identical insider requests: the second calls the provider exactly
      when the first did and got an exception or no table; an empty selection
      is remembered. */
  lemma InsiderSecondCall(c: Cache, ticker: string, endDate: string, startDate: Option<string>,
                          limit: nat, r1: Response<seq<InsiderRow>>, r2: Response<seq<InsiderRow>>)
    ensures var a := Insider.GetInsiderTrades(c, ticker, endDate, startDate, limit, r1);
            var b := Insider.GetInsiderTrades(a.cache, ticker, endDate, startDate, limit, r2);
            && (b.consulted <==> a.consulted && !(r1.Data? && |r1.value| > 0))
            && (!b.consulted ==> b.result == a.result && b.cache == a.cache)
  {
  }

  /** After `clear_cache()` every request goes to the provider again. */
  lemma ClearForgets(c: Cache, ticker: string, startDate: string, endDate: string,
                     metricsEnd: Option<string>, period: string, metricsLimit: int, today: string,
                     insiderStart: Option<string>, insiderLimit: nat,
                     rp: Response<seq<PriceRow>>, rm: Response<Info>, ri: Response<seq<InsiderRow>>)
    ensures Prices.GetPrices(Clear(c), ticker, startDate, endDate, rp).consulted
    ensures Metrics.GetFinancialMetrics(Clear(c), ticker, metricsEnd, period, metricsLimit, today, rm).consulted
    ensures Insider.GetInsiderTrades(Clear(c), ticker, endDate, insiderStart, insiderLimit, ri).consulted
  {
  }
}

=== FILE: strings.dfy ===
/** The few Python `str` operations the Yahoo Finance adapter depends on:
    ordering (used to compare ISO dates), ASCII lower-casing, substring search,
    and the decimal rendering of a non-negative `int` inside a cache key. */
module Strings {

  /** Python's `a < b` on `str`: lexicographic by code point, a proper prefix
      sorting first. (Dafny's own `<` on sequences means "proper prefix".) */
  predicate Less(a: string, b: string)
    decreases |a|
  {
    if |b| == 0 then false
    else if |a| == 0 then true
    else if a[0] != b[0] then a[0] < b[0]
    else Less(a[1..], b[1..])
  }

  /** Python's `a <= b` on `str`. */
  predicate AtMost(a: string, b: string) {
    a == b || Less(a, b)
  }

  lemma {:induction false} LessIrreflexive(a: string)
    ensures !Less(a, a)
    decreases |a|
  {
    if |a| > 0 {
      LessIrreflexive(a[1..]);
    }
  }

  lemma {:induction false} LessAsymmetric(a: string, b: string)
    requires Less(a, b)
    ensures !Less(b, a)
    decreases |a|
  {
    if |a| > 0 && a[0] == b[0] {
      LessAsymmetric(a[1..], b[1..]);
    }
  }

  /** `Less` is transitive, so with irreflexivity and `LessTotal` it is a strict
      total order, as Python's string comparison is. This is a sanity property
      of `Less` itself; no other proof here depends on it. */
  lemma {:induction false} LessTransitive(a: string, b: string, c: string)
    requires Less(a, b) && Less(b, c)
    ensures Less(a, c)
    decreases |a|
  {
    if |a| > 0 && a[0] == b[0] && b[0] == c[0] {
      LessTransitive(a[1..], b[1..], c[1..]);
    }
  }

  /** Any two strings are comparable: Python's string order is total. */
  lemma {:induction false} LessTotal(a: string, b: string)
    ensures Less(a, b) || a == b || Less(b, a)
    decreases |a|
  {
    if |a| > 0 && |b| > 0 && a[0] == b[0] {
      LessTotal(a[1..], b[1..]);
      if a[1..] == b[1..] {
        assert a == [a[0]] + a[1..];
        assert b == [b[0]] + b[1..];
      }
    }
  }

  /** `not (a < b)` is `b <= a`: the form in which a `continue` guard on
      `x < y` becomes an inclusive bound. */
  lemma NotLessIsAtMost(a: string, b: string)
    ensures !Less(a, b) <==> AtMost(b, a)
  {
    LessTotal(a, b);
    if Less(b, a) {
      LessAsymmetric(b, a);
    }
    if a == b {
      LessIrreflexive(a);
    }
  }

  /** `str.lower()` on one character; only ASCII letters are changed. */
  function LowerChar(c: char): char {
    if 'A' <= c <= 'Z' then (c as int - 'A' as int + 'a' as int) as char else c
  }

  /** `str.lower()` restricted to ASCII case mapping. */
  function Lower(s: string): (r: string)
    ensures |r| == |s|
    ensures forall i :: 0 <= i < |s| ==> r[i] == LowerChar(s[i])
  {
    if s == [] then [] else [LowerChar(s[0])] + Lower(s[1..])
  }

  /** `needle` occurs in `hay` at index `i`. */
  predicate OccursAt(needle: string, hay: string, i: int) {
    0 <= i && i + |needle| <= |hay| && hay[i..i + |needle|] == needle
  }

  /** `needle` occurs somewhere in `hay`. */
  ghost predicate Occurs(needle: string, hay: string) {
    exists i :: OccursAt(needle, hay, i)
  }

  /** Python's `needle in hay` on strings, scanning left to right. */
  function Contains(needle: string, hay: string): bool
    decreases |hay|
  {
    if |needle| > |hay| then false
    else if hay[..|needle|] == needle then true
    else Contains(needle, hay[1..])
  }

  /** The scan finds `needle` exactly when it occurs somewhere in `hay`. */
  lemma {:induction false} ContainsIff(needle: string, hay: string)
    ensures Contains(needle, hay) <==> Occurs(needle, hay)
    decreases |hay|
  {
    if |needle| > |hay| {
    } else if hay[..|needle|] == needle {
      assert OccursAt(needle, hay, 0);
    } else {
      ContainsIff(needle, hay[1..]);
      if Contains(needle, hay) {
        var i :| OccursAt(needle, hay[1..], i);
        assert hay[1..][i..i + |needle|] == hay[i + 1..i + 1 + |needle|];
        assert OccursAt(needle, hay, i + 1);
      }
      if Occurs(needle, hay) {
        var j :| OccursAt(needle, hay, j);
        assert j != 0;
        assert hay[j..j + |needle|] == hay[1..][j - 1..j - 1 + |needle|];
        assert OccursAt(needle, hay[1..], j - 1);
      }
    }
  }

  predicate IsDigit(c: char) {
    '0' <= c <= '9'
  }

  function DigitChar(d: nat): (c: char)
    requires d < 10
  {
    ('0' as int + d) as char
  }

  function DigitValue(c: char): nat
    requires IsDigit(c)
  {
    c as int - '0' as int
  }

  /** Python's `str(n)` for a non-negative `int`, as it appears in a cache key. */
  function Decimal(n: nat): (s: string)
    ensures |s| > 0
    ensures forall i :: 0 <= i < |s| ==> IsDigit(s[i])
    decreases n
  {
    if n < 10 then [DigitChar(n)] else Decimal(n / 10) + [DigitChar(n % 10)]
  }

  /** Python's `int(s)` for a string of decimal digits. */
  function ParseDecimal(s: string): nat
    requires forall i :: 0 <= i < |s| ==> IsDigit(s[i])
  {
    if s == [] then 0 else 10 * ParseDecimal(s[..|s| - 1]) + DigitValue(s[|s| - 1])
  }

  /** `int(str(n)) == n`: the decimal rendering loses nothing. */
  lemma {:induction false} DecimalRoundTrip(n: nat)
    ensures ParseDecimal(Decimal(n)) == n
    decreases n
  {
    if n >= 10 {
      DecimalRoundTrip(n / 10);
      var s := Decimal(n);
      assert s[..|s| - 1] == Decimal(n / 10);
    }
  }

  /** Different numbers render differently. */
  lemma DecimalInjective(m: nat, n: nat)
    requires Decimal(m) == Decimal(n)
    ensures m == n
  {
    DecimalRoundTrip(m);
    DecimalRoundTrip(n);
  }
}
